=== FILE: README.md ===
# OASIS-3 freesurfer downloader — a Dafny model

This project models the bookkeeping core of `FreesurfersManagerMRI`, the
class in `modules/data_manager_fs.py` that downloads the freesurfer `mri`
folders of OASIS-3 subjects. It covers what that class computes and what it
does to the output directory:

- **The id list.** The list file is read with `readlines()` and every line
  loses its last character (`line[:-1]`). This is module `IdList`, built on
  the one-character `str.split` of module `Tokens`.
- **Labels.** An assessment id such as `OAS30001_Freesurfer53_d0129` is split
  on `_`. Tokens 0 and 2 give the subject and the experiment label
  `OAS30001_MR_d0129` (module `Labels`).
- **The download URL.** It is the repository's base URL, then the project id
  `OASIS3`, then the `/subjects/…/experiments/…/assessors/…/files?format=zip`
  path (module `Urls`).
- **The batch.** `download` handles the ids in file order. A response other
  than 200 is skipped. A 200 answer is written as `<label>.zip`, extracted,
  and post-processed. A malformed id or a filesystem error ends the run
  (module `Downloader`).
- **Post-processing.** The `mri` folder nested in the extracted tree moves to
  a fresh folder named after the label. The extracted tree and the zip are
  removed, and a non-empty allow-list prunes the `mri` folder (module
  `PostProcess`).
- **`clean`.** Every subject folder whose check subfolder holds exactly one
  entry moves to a holding directory (module `Cleaner`).

The filesystem is abstract. A folder is a map from entry names to
`File(bytes)` or `Dir(entries)`, and the `os` / `shutil` / `zipfile` calls are
updates of such maps that either succeed or report the error the call would
raise (module `FileSystem`), except for the failures listed under "Left out". The order in which `os.listdir` returns entries
is an explicit parameter. The pruning loop's result never depends on it
(`PostProcess.PruneLoopIsFilter`). Whether `clean` succeeds, and its result
when it does, do not depend on it either (`Cleaner.CleanOrderIrrelevant`).
When `clean` fails, the error raised, and what was moved before it, do
depend on the order. The HTTP server is a function from URL to response. A run records the
URLs it fetched, in order.

The model follows the code as written, apart from the gaps listed under "Left out". If the list file does not end with a
newline, `line[:-1]` cuts the last real character off the last id.
`IdList.LastIdLosesCharacter` states this exactly and
`IdList.ReadIdsArePieces` says which ids the file yields in each case. An id
with fewer than two underscores makes `fs_id_splitted[2]` raise, so the
batch aborts on it; it is not skipped.

## Model

| member | source | states |
|---|---|---|
| Tokens.Split | modules/data_manager_fs.py:154 | `str.split` on one character: at least one piece, and no piece contains the separator |
| Tokens.SplitCount | modules/data_manager_fs.py:154-157 | there is exactly one more piece than the id has separators, so token 2 exists exactly when there are at least two `_` |
| Tokens.JoinSplit | modules/data_manager_fs.py:154 | the pieces, joined with the separator, are the original string (nothing is lost by splitting) |
| Tokens.SplitJoin | modules/data_manager_fs.py:154 | splitting undoes joining separator-free pieces |
| IdList.ReadLinesShape | modules/data_manager_fs.py:143-145 | `readlines()`: the lines concatenate to the file text; no line is empty; every line but the last ends in a newline; no line has a newline before its last character |
| IdList.ReadIdsArePieces | modules/data_manager_fs.py:143-145 | the ids are the newline-separated pieces of the file, minus the empty piece after a final newline; without a final newline the last piece also loses its last character |
| IdList.IdDropsNewline | modules/data_manager_fs.py:144-145 | every line that ends in a newline is its id followed by that newline |
| IdList.LastIdLosesCharacter | modules/data_manager_fs.py:144-145 | when the file does not end in a newline, the last id is the last line without its final real character |
| IdList.NoIdsIffEmptyFile | modules/data_manager_fs.py:145-147 | the id list is empty exactly when the file is empty |
| Labels.ParseAssessmentId | modules/data_manager_fs.py:154-157 | the subject and time tokens exist exactly when the id has at least two `_`; neither token contains `_` |
| Labels.ExperimentLabel | modules/data_manager_fs.py:154-158 | an id has a label exactly when it has at least two `_` |
| Labels.LabelOfShapedId | modules/data_manager_fs.py:154-158 | an id `subject_middle_time[_…]` has subject `subject` and label `subject_MR_time` |
| Labels.ParsedIdIsShaped | modules/data_manager_fs.py:154-157 | conversely, every id that parses is such a subject, middle token, time and optional `_`-tail |
| Urls.BuildDownloadUrl | modules/data_manager_fs.py:31-44 | the URL starts with base URL + `OASIS3` + `/subjects/` and ends with `/files?format=zip` |
| Urls.PathShape | modules/data_manager_fs.py:31-44 | the URL is the fixed head followed by the template path subject, `/experiments/`, experiment, `/assessors/`, assessor, `/files?format=zip` |
| Urls.ParseBuild | modules/data_manager_fs.py:31-44 | for ids without `/`, the subject, experiment and assessor can be read back from the URL |
| Urls.BuildInjective | modules/data_manager_fs.py:31-44 | distinct ids without `/` never share a download URL |
| FileSystem.LookupAfterDetach | modules/data_manager_fs.py:92 | after `shutil.move` takes a node away, nothing is left at its old path |
| FileSystem.ExtractAll | modules/data_manager_fs.py:174-176 | `extractall` succeeds exactly when no archive file meets a directory and no archive directory meets a file; the entries afterwards are the old ones plus the archive's; entries the archive does not name are untouched and new ones are the archive's |
| FileSystem.ExtractedFilePresent | modules/data_manager_fs.py:174-176 | after extraction every file of the archive is at its path, with the archive's contents |
| FileSystem.ExtractIntoFree | modules/data_manager_fs.py:174-176 | an archive whose names are all free is simply added to the folder |
| PostProcess.Prune | modules/data_manager_fs.py:98-110 | an empty allow-list keeps the `mri` folder as it is; otherwise exactly its entries named in the list survive, unchanged |
| PostProcess.PruneListed | modules/data_manager_fs.py:102-110 | the loop over a listing keeps an entry exactly when it is allowed or was not listed, and never changes a kept entry |
| PostProcess.PruneLoopIsFilter | modules/data_manager_fs.py:98-110 | whatever order `os.listdir` gives, the loop computes the allow-list filter |
| PostProcess.PruneIdempotent | modules/data_manager_fs.py:98-110 | pruning twice with the same list removes nothing more |
| PostProcess.MovedEffect | modules/data_manager_fs.py:82-92 | after overwrite, `mkdir` and move, the destination holds only the `mri` folder and every other entry is as before |
| PostProcess.FinishEffect | modules/data_manager_fs.py:94-115 | the extracted tree and the zip go, the `mri` folder is pruned, and every other entry stays |
| PostProcess.RunEffect | modules/data_manager_fs.py:69-115 | on a ready directory, post-processing succeeds: the label folder holds only the moved (pruned) `mri` folder, the `fs_id` tree and the zip are gone, nothing else changes |
| PostProcess.RunFailsUnlessReady | modules/data_manager_fs.py:69-115 | on any other directory post-processing raises |
| Downloader.UrlFor | modules/data_manager_fs.py:154-162 | an id gets a URL exactly when it has a label, and the URL starts with the fixed head |
| Downloader.UrlOfShapedId | modules/data_manager_fs.py:154-162 | the URL of an id `subject_middle_time[_…]` is the fixed head followed by the template path filled with `subject`, the label `subject_MR_time` and the whole id |
| Downloader.DownloadOne | modules/data_manager_fs.py:153-185 | a malformed id aborts before any request; otherwise exactly its URL is fetched, once |
| Downloader.DownloadAll | modules/data_manager_fs.py:153-185 | the i-th request is the URL of the i-th id; a run that completes fetched every id |
| Downloader.Download | modules/data_manager_fs.py:140-188 | the run fails with the empty-list error, before any request, exactly when the list file is empty; otherwise the requests made follow the ids in file order |
| Downloader.RefusedIdSkipped | modules/data_manager_fs.py:163-185 | an id answered with anything but 200 is fetched and leaves the output directory unchanged |
| Downloader.DownloadAllAppend | modules/data_manager_fs.py:153-185 | running ids `a + b` is running `a`, then `b` on what `a` left, with the requests concatenated |
| Downloader.RefusedIdChangesNothing | modules/data_manager_fs.py:163-185 | a batch with a refused id ends exactly as the batch without it |
| Downloader.AllRefused | modules/data_manager_fs.py:153-185 | when every id is refused the run completes and the output directory is unchanged |
| Downloader.AcceptedIdStored | modules/data_manager_fs.py:165-182 | an id answered with 200 whose archive has the expected layout leaves its label folder holding only the `mri` folder, with no zip and no `fs_id` tree, and every unrelated entry unchanged |
| Downloader.ClashAborts | modules/data_manager_fs.py:174-176 | an archive that clashes with the output directory aborts the batch |
| Cleaner.Clean | modules/data_manager_fs.py:204-217 | `clean` succeeds exactly when every subject folder's check subfolder can be listed and every folder to move has a free place; it then moves exactly the folders whose check subfolder holds one entry |
| Cleaner.CleanMovesLookingEmpty | modules/data_manager_fs.py:208-217 | a folder stays, unchanged, exactly when its check subfolder does not hold exactly one entry; the others arrive in the holding directory under their own names; what the holding directory held stays |
| Cleaner.CleanOrderIrrelevant | modules/data_manager_fs.py:208-217 | whether `clean` succeeds, and which folders move and where they land when it does, do not depend on the `os.listdir` order |
| Cleaner.CleanListedEffect | modules/data_manager_fs.py:208-217 | the loop over any listing of distinct entries succeeds exactly when all of them are cleanable, and then its result is the kept and collected folders |
| Cleaner.StepEffect | modules/data_manager_fs.py:210-217 | one iteration moves the folder exactly when its check subfolder holds one entry, and raises exactly when it cannot be placed |
| Cleaner.ReceivedIsMoveAcross | modules/data_manager_fs.py:216-217 | the holding directory accepts a folder exactly when `shutil.move` to its own name succeeds, and the result is what that move leaves |

## Left out

- The HTTP session, basic authentication and `requests`. The server is a function from URL to response. A network exception from `session.get` is not modelled.
- Zip decoding. A response carries the folder tree its body unpacks to. The zip file written to disk holds the body bytes, but extraction reads that tree, not the bytes.
- Partial effects. `extractall` and the `os`/`shutil` calls can stop halfway: an archive member written before a clash, or a file left behind by an aborted run. An abort records the error and the requests made, not the filesystem state at that moment.
- Messages. The `print` calls (lines 112, 148, 160, 172, 178, 184-185, 219) do not affect the filesystem.
- Reading the list file. `Download` starts from the file's text. A failing `open` at line 143 (missing file, a directory, no permission) raises before the empty-list check and is not modelled.
- Text-mode newline translation. The list file is treated as already decoded, with `\n` line ends only. Universal-newline handling of `\r\n` and `\r` is not modelled.
- The constructor of `modules/data_manager_abstract.py` (lines 6-19), which creates the output directory. The model starts from an existing output folder. Its base URL (line 16) is the constant `Urls.BaseUrl`.
- Symbolic links and special entries. The model has only files and directories. The pruning loop follows links: a link to a file is removed with `os.remove`, and a link to a directory reaches `shutil.rmtree`, which raises on a link and aborts the run. Dangling links, FIFOs and sockets are skipped by the loop. None of this is modelled, and neither are permissions.
- Ids and labels containing `/`. Every id and label is treated as a single entry name. In the program `os.path.join` reads a `/` inside an id as a path separator, so such an id can point into a missing subfolder (the zip cannot be written and the run aborts) or, with a leading `/`, outside the output directory. Ids containing `/` are not modelled.
- A failing `os.mkdir` of the holding directory (line 206: missing parent, no permission). It raises before any folder moves and is not modelled; `holding == None` in `Cleaner.Clean` means the directory can be created.
- The holding directory of `clean` existing as a file, or lying inside the output directory. The model's holding directory is either absent or a separate folder.
- Downloader.DownloadAll: no batch-level statement that N accepted ids give N label folders. This holds id by id (`Downloader.AcceptedIdStored`), and for a whole batch only when the labels are distinct and every archive has the expected layout.

=== FILE: cleaner.dfy ===
/**
  The clean pass (modules/data_manager_fs.py:190-219): every entry of the
  output directory is a subject folder; when its check subfolder holds
  exactly one entry (the placeholder left by an extraction with no data),
  the whole subject folder moves to the holding directory under the same
  name, and every other folder stays where it is.
 */
module Cleaner {
  import opened Wrappers
  import opened FileSystem

  /** The subject folder's check subfolder exists and can be listed. */
  predicate Checkable(node: Node, checkDir: string)
  {
    node.Dir? && IsDir(node.entries, checkDir)
  }

  /** The check subfolder holds exactly one entry. */
  predicate LooksEmpty(node: Node, checkDir: string)
  {
    Checkable(node, checkDir) && |node.entries[checkDir].entries| == 1
  }

  /** `shutil.move` can put a folder called `name` into the holding directory. */
  predicate Receivable(holding: Folder, name: string)
  {
    name !in holding || (holding[name].Dir? && name !in holding[name].entries)
  }

  /** What the holding directory has under `name` once `node` was moved there. */
  function Received(holding: Folder, name: string, node: Node): Node
    requires Receivable(holding, name)
  {
    if name !in holding then node else Dir(holding[name].entries[name := node])
  }

  /** `Receivable` and `Received` are exactly `MoveAcross` to the entry's own name. */
  lemma ReceivedIsMoveAcross(holding: Folder, name: string, node: Node)
    ensures MoveAcross(node, name, holding, name).Success? <==> Receivable(holding, name)
    ensures Receivable(holding, name) ==>
      MoveAcross(node, name, holding, name) == Success(holding[name := Received(holding, name, node)])
  {
  }

  /** One pass of the loop, for the entry `name` of the output directory. */
  function Step(output: Folder, holding: Folder, name: string, checkDir: string): Result<(Folder, Folder), FsError>
  {
    if name !in output then Failure(NotFound([name]))
    else if !output[name].Dir? then Failure(NotADirectory([name]))
    else if checkDir !in output[name].entries then Failure(NotFound([name, checkDir]))
    else if !output[name].entries[checkDir].Dir? then Failure(NotADirectory([name, checkDir]))
    else if |output[name].entries[checkDir].entries| == 1 then
      var moved :- MoveAcross(output[name], name, holding, name);
      Success((output - {name}, moved))
    else Success((output, holding))
  }

  /** The loop over the entries, in the order `os.listdir` gave them. */
  function CleanListed(output: Folder, holding: Folder, listing: seq<string>, checkDir: string): Result<(Folder, Folder), FsError>
    decreases |listing|
  {
    if |listing| == 0 then Success((output, holding))
    else
      var next :- Step(output, holding, listing[0], checkDir);
      CleanListed(next.0, next.1, listing[1..], checkDir)
  }

  /** `listing` names every entry of `output` exactly once. */
  predicate Enumerates(listing: seq<string>, output: Folder)
  {
    && (forall name :: name in listing ==> name in output)
    && (forall name :: name in output ==> name in listing)
    && (forall i, j :: 0 <= i < j < |listing| ==> listing[i] != listing[j])
  }

  /** Every listed subject folder can be checked and, if it looks empty, moved. */
  predicate Cleanable(output: Folder, holding: Folder, listing: seq<string>, checkDir: string)
    requires forall name :: name in listing ==> name in output
  {
    forall name :: name in listing ==>
      Checkable(output[name], checkDir) && (LooksEmpty(output[name], checkDir) ==> Receivable(holding, name))
  }

  /** The output directory afterwards: the folders among `listing` that looked empty are gone. */
  function Kept(output: Folder, listing: seq<string>, checkDir: string): Folder
  {
    map name | name in output && !(name in listing && LooksEmpty(output[name], checkDir)) :: output[name]
  }

  /** The holding directory afterwards: the folders that looked empty have arrived. */
  function Collected(output: Folder, holding: Folder, listing: seq<string>, checkDir: string): Folder
    requires forall name :: name in listing && name in output && LooksEmpty(output[name], checkDir) ==> Receivable(holding, name)
  {
    map name | name in output.Keys + holding.Keys
               && (name in holding || (name in listing && name in output && LooksEmpty(output[name], checkDir))) ::
      if name in listing && name in output && LooksEmpty(output[name], checkDir)
      then Received(holding, name, output[name])
      else holding[name]
  }

  /**
    `clean`: the holding directory is created when it does not exist, then the
    output directory's entries are checked in listing order. `holding == None`
    stands for a holding directory that does not exist yet and can be created.
   */
  function Clean(output: Folder, holding: Option<Folder>, listing: seq<string>, checkDir: string): (r: Result<(Folder, Folder), FsError>)
    requires Enumerates(listing, output)
    ensures var h := holding.GetOr(map[]);
      r.Success? <==> Cleanable(output, h, listing, checkDir)
    ensures var h := holding.GetOr(map[]);
      r.Success? ==> r.value == (Kept(output, listing, checkDir), Collected(output, h, listing, checkDir))
  {
    var h := holding.GetOr(map[]);
    CleanListedEffect(output, h, listing, checkDir);
    CleanListed(output, h, listing, checkDir)
  }

  /**
    When `clean` gets through, the subject folders whose check subfolder holds
    exactly one entry are in the holding directory under their own names, and
    every other subject folder is still in the output directory, unchanged.
   */
  lemma CleanMovesLookingEmpty(output: Folder, holding: Option<Folder>, listing: seq<string>, checkDir: string)
    requires Enumerates(listing, output)
    requires Clean(output, holding, listing, checkDir).Success?
    ensures var (kept, collected) := Clean(output, holding, listing, checkDir).value;
      && (forall name :: name in kept <==> name in output && !LooksEmpty(output[name], checkDir))
      && (forall name :: name in kept ==> kept[name] == output[name])
      && (forall name :: name in output && LooksEmpty(output[name], checkDir) ==>
            && name in collected
            && collected[name] == Received(holding.GetOr(map[]), name, output[name]))
      && (forall name :: name in holding.GetOr(map[]) && name !in output ==>
            name in collected && collected[name] == holding.GetOr(map[])[name])
  {
  }

  /** Whether `clean` succeeds, and which folders move and where they land when it does, do not depend on the order `os.listdir` gives. */
  lemma CleanOrderIrrelevant(output: Folder, holding: Option<Folder>, listing: seq<string>, other: seq<string>, checkDir: string)
    requires Enumerates(listing, output) && Enumerates(other, output)
    ensures Clean(output, holding, listing, checkDir).Success? <==> Clean(output, holding, other, checkDir).Success?
    ensures Clean(output, holding, listing, checkDir).Success? ==>
      Clean(output, holding, listing, checkDir) == Clean(output, holding, other, checkDir)
  {
    var h := holding.GetOr(map[]);
    assert forall name :: name in listing <==> name in other;
    assert Cleanable(output, h, listing, checkDir) <==> Cleanable(output, h, other, checkDir);
    if Cleanable(output, h, listing, checkDir) {
      SameMembers(output, h, listing, other, checkDir);
    }
  }

  /** Two listings with the same members keep and collect the same folders. */
  lemma SameMembers(output: Folder, holding: Folder, listing: seq<string>, other: seq<string>, checkDir: string)
    requires forall name :: name in listing <==> name in other
    requires forall name :: name in listing ==> name in output
    requires Cleanable(output, holding, listing, checkDir)
    ensures Kept(output, listing, checkDir) == Kept(output, other, checkDir)
    ensures Collected(output, holding, listing, checkDir) == Collected(output, holding, other, checkDir)
  {
    assert Kept(output, listing, checkDir).Keys == Kept(output, other, checkDir).Keys;
    assert Collected(output, holding, listing, checkDir).Keys == Collected(output, holding, other, checkDir).Keys;
  }

  /** One step, when the folder can be checked. */
  lemma StepEffect(output: Folder, holding: Folder, name: string, checkDir: string)
    requires name in output && Checkable(output[name], checkDir)
    ensures Step(output, holding, name, checkDir).Success? <==> (LooksEmpty(output[name], checkDir) ==> Receivable(holding, name))
    ensures Step(output, holding, name, checkDir).Success? ==>
      Step(output, holding, name, checkDir).value ==
        if LooksEmpty(output[name], checkDir)
        then (output - {name}, holding[name := Received(holding, name, output[name])])
        else (output, holding)
  {
  }

  /**
    What the loop over `listing` does: it succeeds exactly when every listed
    folder is cleanable, and then it has moved exactly the listed folders
    that looked empty.
   */
  predicate LoopEffect(output: Folder, holding: Folder, listing: seq<string>, checkDir: string)
    requires forall name :: name in listing ==> name in output
  {
    && (CleanListed(output, holding, listing, checkDir).Success? <==> Cleanable(output, holding, listing, checkDir))
    && (CleanListed(output, holding, listing, checkDir).Success? ==>
          CleanListed(output, holding, listing, checkDir).value ==
            (Kept(output, listing, checkDir), Collected(output, holding, listing, checkDir)))
  }

  /** The loop over any listing of distinct entries has that effect. */
  lemma {:induction false} CleanListedEffect(output: Folder, holding: Folder, listing: seq<string>, checkDir: string)
    requires forall name :: name in listing ==> name in output
    requires forall i, j :: 0 <= i < j < |listing| ==> listing[i] != listing[j]
    ensures LoopEffect(output, holding, listing, checkDir)
    decreases |listing|
  {
    if |listing| == 0 {
      NothingListed(output, holding, listing, checkDir);
    } else if Step(output, holding, listing[0], checkDir).Failure? {
      FirstStepFails(output, holding, listing, checkDir);
    } else {
      var next := Step(output, holding, listing[0], checkDir).value;
      RestStillListed(output, holding, listing, checkDir);
      CleanListedEffect(next.0, next.1, listing[1..], checkDir);
      StepThenRest(output, holding, listing, checkDir);
    }
  }

  /** An empty listing changes nothing. */
  lemma NothingListed(output: Folder, holding: Folder, listing: seq<string>, checkDir: string)
    requires |listing| == 0
    ensures LoopEffect(output, holding, listing, checkDir)
  {
    assert Kept(output, listing, checkDir) == output;
    assert Collected(output, holding, listing, checkDir) == holding;
  }

  /** When the first listed folder cannot be handled, the loop raises and the listing is not cleanable. */
  lemma FirstStepFails(output: Folder, holding: Folder, listing: seq<string>, checkDir: string)
    requires |listing| > 0
    requires forall name :: name in listing ==> name in output
    requires Step(output, holding, listing[0], checkDir).Failure?
    ensures LoopEffect(output, holding, listing, checkDir)
  {
    var name := listing[0];
    if Checkable(output[name], checkDir) {
      StepEffect(output, holding, name, checkDir);
    }
  }

  /** After a successful first step, the rest of the listing is still listed and distinct. */
  lemma RestStillListed(output: Folder, holding: Folder, listing: seq<string>, checkDir: string)
    requires |listing| > 0
    requires forall name :: name in listing ==> name in output
    requires forall i, j :: 0 <= i < j < |listing| ==> listing[i] != listing[j]
    requires Step(output, holding, listing[0], checkDir).Success?
    ensures var next := Step(output, holding, listing[0], checkDir).value;
      && (forall name :: name in listing[1..] ==> name in next.0)
      && (forall i, j :: 0 <= i < j < |listing[1..]| ==> listing[1..][i] != listing[1..][j])
  {
    var rest := listing[1..];
    forall n | n in rest
      ensures n != listing[0] && n in output
    {
      var k :| 0 <= k < |rest| && rest[k] == n;
      assert listing[k + 1] == n;
    }
    StepEffect(output, holding, listing[0], checkDir);
    forall i, j | 0 <= i < j < |rest|
      ensures rest[i] != rest[j]
    {
      assert rest[i] == listing[i + 1] && rest[j] == listing[j + 1];
    }
  }

  /** The inductive step of `CleanListedEffect`: the first folder, then the rest. */
  lemma StepThenRest(output: Folder, holding: Folder, listing: seq<string>, checkDir: string)
    requires |listing| > 0
    requires forall name :: name in listing ==> name in output
    requires forall i, j :: 0 <= i < j < |listing| ==> listing[i] != listing[j]
    requires Checkable(output[listing[0]], checkDir)
    requires Step(output, holding, listing[0], checkDir).Success?
    requires var next := Step(output, holding, listing[0], checkDir).value;
      && (CleanListed(next.0, next.1, listing[1..], checkDir).Success? <==> Cleanable(next.0, next.1, listing[1..], checkDir))
      && (CleanListed(next.0, next.1, listing[1..], checkDir).Success? ==>
            CleanListed(next.0, next.1, listing[1..], checkDir).value ==
              (Kept(next.0, listing[1..], checkDir), Collected(next.0, next.1, listing[1..], checkDir)))
    ensures CleanListed(output, holding, listing, checkDir).Success? <==> Cleanable(output, holding, listing, checkDir)
    ensures CleanListed(output, holding, listing, checkDir).Success? ==>
      CleanListed(output, holding, listing, checkDir).value ==
        (Kept(output, listing, checkDir), Collected(output, holding, listing, checkDir))
  {
    var name := listing[0];
    var rest := listing[1..];
    assert forall n :: n in rest ==> n != name by {
      forall n | n in rest ensures n != name {
        var k :| 0 <= k < |rest| && rest[k] == n;
        assert listing[k + 1] == n;
      }
    }
    assert forall n :: n in listing <==> n == name || n in rest;
    StepEffect(output, holding, name, checkDir);
    var next := Step(output, holding, name, checkDir).value;
    CleanableStep(output, holding, listing, checkDir);
    assert CleanListed(output, holding, listing, checkDir) == CleanListed(next.0, next.1, rest, checkDir);
    if CleanListed(next.0, next.1, rest, checkDir).Success? {
      assert [name] + rest == listing;
      KeptStep(output, name, rest, checkDir);
      CollectedStep(output, holding, name, rest, checkDir);
    }
  }

  /** After a successful first step, the rest is cleanable exactly when the whole listing was. */
  lemma CleanableStep(output: Folder, holding: Folder, listing: seq<string>, checkDir: string)
    requires |listing| > 0
    requires forall name :: name in listing ==> name in output
    requires forall n :: n in listing[1..] ==> n != listing[0]
    requires Checkable(output[listing[0]], checkDir)
    requires Step(output, holding, listing[0], checkDir).Success?
    ensures var next := Step(output, holding, listing[0], checkDir).value;
      && (forall n :: n in listing[1..] ==> n in next.0)
      && (Cleanable(next.0, next.1, listing[1..], checkDir) <==> Cleanable(output, holding, listing, checkDir))
  {
    var name := listing[0];
    var rest := listing[1..];
    StepEffect(output, holding, name, checkDir);
    var next := Step(output, holding, name, checkDir).value;
    forall n | n in rest
      ensures n in listing && n in next.0 && next.0[n] == output[n]
      ensures Receivable(next.1, n) <==> Receivable(holding, n)
    {
      var k :| 0 <= k < |rest| && rest[k] == n;
      assert listing[k + 1] == n;
    }
    if Cleanable(output, holding, listing, checkDir) {
      forall n | n in rest
        ensures Checkable(next.0[n], checkDir) && (LooksEmpty(next.0[n], checkDir) ==> Receivable(next.1, n))
      {
      }
    }
    if Cleanable(next.0, next.1, rest, checkDir) {
      forall n | n in listing
        ensures Checkable(output[n], checkDir) && (LooksEmpty(output[n], checkDir) ==> Receivable(holding, n))
      {
        if n != name {
          assert n in rest by {
            var k :| 0 <= k < |listing| && listing[k] == n;
            assert rest[k - 1] == n;
          }
        }
      }
    }
  }

  /** Handling the first listed folder, then the rest, keeps what `Kept` says. */
  lemma KeptStep(output: Folder, name: string, rest: seq<string>, checkDir: string)
    requires name in output && name !in rest
    ensures var next := if LooksEmpty(output[name], checkDir) then output - {name} else output;
      Kept(next, rest, checkDir) == Kept(output, [name] + rest, checkDir)
  {
    var next := if LooksEmpty(output[name], checkDir) then output - {name} else output;
    assert Kept(next, rest, checkDir).Keys == Kept(output, [name] + rest, checkDir).Keys;
  }

  /** Handling the first listed folder, then the rest, collects what `Collected` says. */
  lemma CollectedStep(output: Folder, holding: Folder, name: string, rest: seq<string>, checkDir: string)
    requires name in output && name !in rest
    requires forall n :: n in [name] + rest && n in output && LooksEmpty(output[n], checkDir) ==> Receivable(holding, n)
    ensures var empty := LooksEmpty(output[name], checkDir);
      var next := if empty then output - {name} else output;
      var moved := if empty then holding[name := Received(holding, name, output[name])] else holding;
      (forall n :: n in rest && n in next && LooksEmpty(next[n], checkDir) ==> Receivable(moved, n))
      && Collected(next, moved, rest, checkDir) == Collected(output, holding, [name] + rest, checkDir)
  {
    var empty := LooksEmpty(output[name], checkDir);
    var next := if empty then output - {name} else output;
    var moved := if empty then holding[name := Received(holding, name, output[name])] else holding;
    assert forall n :: n in rest ==> n in [name] + rest;
    assert forall n :: n in rest && n in next && LooksEmpty(next[n], checkDir) ==> Receivable(moved, n);
    if empty {
      CollectedMoved(output, holding, name, rest, checkDir);
    } else {
      CollectedKept(output, holding, name, rest, checkDir);
    }
  }

  /** A folder that looked empty has arrived in the holding directory before the rest are handled. */
  lemma CollectedMoved(output: Folder, holding: Folder, name: string, rest: seq<string>, checkDir: string)
    requires name in output && name !in rest && LooksEmpty(output[name], checkDir)
    requires forall n :: n in [name] + rest && n in output && LooksEmpty(output[n], checkDir) ==> Receivable(holding, n)
    requires forall n :: n in rest && n in output - {name} && LooksEmpty((output - {name})[n], checkDir) ==>
      Receivable(holding[name := Received(holding, name, output[name])], n)
    ensures Collected(output - {name}, holding[name := Received(holding, name, output[name])], rest, checkDir)
      == Collected(output, holding, [name] + rest, checkDir)
  {
    var after := Collected(output - {name}, holding[name := Received(holding, name, output[name])], rest, checkDir);
    var whole := Collected(output, holding, [name] + rest, checkDir);
    forall k
      ensures k in after <==> k in whole
      ensures k in after ==> after[k] == whole[k]
    {
      if k != name {
        assert k in [name] + rest <==> k in rest;
      }
    }
    assert after.Keys == whole.Keys;
  }

  /** A folder that did not look empty contributes nothing to the holding directory. */
  lemma CollectedKept(output: Folder, holding: Folder, name: string, rest: seq<string>, checkDir: string)
    requires name in output && name !in rest && !LooksEmpty(output[name], checkDir)
    requires forall n :: n in [name] + rest && n in output && LooksEmpty(output[n], checkDir) ==> Receivable(holding, n)
    ensures forall n :: n in rest && n in output && LooksEmpty(output[n], checkDir) ==> Receivable(holding, n)
    ensures Collected(output, holding, rest, checkDir) == Collected(output, holding, [name] + rest, checkDir)
  {
    assert forall n :: n in rest ==> n in [name] + rest;
    assert Collected(output, holding, rest, checkDir).Keys == Collected(output, holding, [name] + rest, checkDir).Keys;
  }
}

=== FILE: downloader.dfy ===
/**
  The batch download (modules/data_manager_fs.py:118-188): the ids read from
  the list file are processed strictly in order; for each one the URL is
  built and fetched, a 200 answer is stored as `<label>.zip`, extracted and
  post-processed, and any other status is skipped. An empty list is refused
  before anything is fetched; a malformed id or a filesystem error aborts the
  whole batch.

  The server is a parameter: a function from URL to the response it gives.
  The outcome records the URLs fetched, in order, which is what the network
  sees of a run.
 */
module Downloader {
  import opened Wrappers
  import opened FileSystem
  import opened IdList
  import opened Labels
  import opened Urls
  import PostProcess

  /** What the server answers to one GET: the status, the body, and the tree the body unzips to. */
  datatype Response = Response(status: int, body: seq<bv8>, archive: Folder)

  /** Why a batch stopped. */
  datatype DownloadError =
    | EmptyIdList
    | MalformedId(fsId: string)
    | FsFailure(cause: FsError)

  /** How a batch ended, with the URLs it fetched on the way. */
  datatype Outcome =
    | Completed(output: Folder, requested: seq<string>)
    | Aborted(error: DownloadError, requested: seq<string>)
  {
    /** The same outcome after `earlier` were fetched first. */
    function After(earlier: seq<string>): Outcome
    {
      match this
      case Completed(output, requested) => Completed(output, earlier + requested)
      case Aborted(error, requested) => Aborted(error, earlier + requested)
    }

    /** What is left of the outcome once the network trace is forgotten. */
    function Effect(): Result<Folder, DownloadError>
    {
      match this
      case Completed(output, _) => Success(output)
      case Aborted(error, _) => Failure(error)
    }
  }

  /** The URL fetched for an id, when the id has a label. */
  function UrlFor(fsId: string): (r: Option<string>)
    ensures r.Some? <==> multiset(fsId)['_'] >= 2
    ensures r.Some? ==> UrlHead <= r.value
  {
    match ParseAssessmentId(fsId)
    case None => None
    case Some(a) => Some(BuildDownloadUrl(a.subject, a.Label(), fsId))
  }

  /**
    The URL of an id `subject_middle_time[_…]` is the template filled with the
    subject, the label `subject_MR_time` and the whole id.
   */
  lemma UrlOfShapedId(fsId: string, subject: string, middle: string, time: string, tail: string)
    requires Shaped(fsId, subject, middle, time, tail)
    ensures UrlFor(fsId) == Some(BuildDownloadUrl(subject, subject + "_MR_" + time, fsId))
    ensures UrlFor(fsId) == Some(UrlHead + Path(subject, subject + "_MR_" + time, fsId))
  {
    LabelOfShapedId(fsId, subject, middle, time, tail);
    PathShape(subject, subject + "_MR_" + time, fsId);
  }

  /** The body of the loop for one id (modules/data_manager_fs.py:154-185). */
  function DownloadOne(output: Folder, fsId: string, keep: seq<string>, server: string -> Response): (r: Outcome)
    ensures r == Aborted(MalformedId(fsId), []) <==> UrlFor(fsId).None?
    ensures UrlFor(fsId).Some? ==> r.requested == [UrlFor(fsId).value]
    ensures r.Aborted? ==> r.error != EmptyIdList
  {
    match ParseAssessmentId(fsId)
    case None => Aborted(MalformedId(fsId), [])
    case Some(a) =>
      var experiment := a.Label();
      var url := BuildDownloadUrl(a.subject, experiment, fsId);
      var response := server(url);
      if response.status != 200 then Completed(output, [url])
      else
        match WriteFile(output, PostProcess.ZipName(experiment), response.body)
        case Failure(e) => Aborted(FsFailure(e), [url])
        case Success(written) =>
          match ExtractAll(written, response.archive)
          case Failure(e) => Aborted(FsFailure(e), [url])
          case Success(extracted) =>
            match PostProcess.Run(extracted, fsId, experiment, keep)
            case Failure(e) => Aborted(FsFailure(e), [url])
            case Success(done) => Completed(done, [url])
  }

  /**
    The loop over the ids: every id is fetched in list order, none is skipped
    or fetched twice, and only a run that aborts stops short of the end.
   */
  function DownloadAll(output: Folder, ids: seq<string>, keep: seq<string>, server: string -> Response): (r: Outcome)
    ensures |r.requested| <= |ids|
    ensures forall i :: 0 <= i < |r.requested| ==> UrlFor(ids[i]) == Some(r.requested[i])
    ensures r.Completed? ==> |r.requested| == |ids|
    ensures r.Aborted? ==> r.error != EmptyIdList
    decreases |ids|
  {
    if |ids| == 0 then Completed(output, [])
    else
      match DownloadOne(output, ids[0], keep, server)
      case Aborted(e, requested) => Aborted(e, requested)
      case Completed(next, requested) =>
        var rest := DownloadAll(next, ids[1..], keep, server);
        FetchedInOrder(ids, requested, rest.requested);
        rest.After(requested)
  }

  /** The URLs of the first id, then of the rest, in order. */
  lemma FetchedInOrder(ids: seq<string>, first: seq<string>, later: seq<string>)
    requires |ids| > 0 && UrlFor(ids[0]).Some? && first == [UrlFor(ids[0]).value]
    requires |later| <= |ids| - 1
    requires forall i :: 0 <= i < |later| ==> UrlFor(ids[1..][i]) == Some(later[i])
    ensures forall i :: 0 <= i < |first + later| ==> UrlFor(ids[i]) == Some((first + later)[i])
  {
    forall i | 0 <= i < |first + later|
      ensures UrlFor(ids[i]) == Some((first + later)[i])
    {
      if i > 0 {
        assert ids[i] == ids[1..][i - 1];
      }
    }
  }

  /**
    `download`: reads the ids from the list file, refuses an empty list before
    any request, and otherwise runs the batch.
   */
  function Download(listFile: string, keep: seq<string>, server: string -> Response, output: Folder): (r: Outcome)
    ensures r == Aborted(EmptyIdList, []) <==> |listFile| == 0
    ensures |r.requested| <= |ReadIds(listFile)|
    ensures forall i :: 0 <= i < |r.requested| ==> UrlFor(ReadIds(listFile)[i]) == Some(r.requested[i])
  {
    var ids := ReadIds(listFile);
    NoIdsIffEmptyFile(listFile);
    if |ids| == 0 then Aborted(EmptyIdList, [])
    else DownloadAll(output, ids, keep, server)
  }

  /** An id whose URL gets any status but 200 is fetched and leaves the output directory as it was. */
  lemma RefusedIdSkipped(output: Folder, fsId: string, keep: seq<string>, server: string -> Response)
    requires UrlFor(fsId).Some? && server(UrlFor(fsId).value).status != 200
    ensures DownloadOne(output, fsId, keep, server) == Completed(output, [UrlFor(fsId).value])
  {
  }

  /** The batch runs the ids in order: running `a + b` is running `a`, then `b` on what `a` left. */
  lemma {:induction false} DownloadAllAppend(output: Folder, a: seq<string>, b: seq<string>, keep: seq<string>, server: string -> Response)
    ensures DownloadAll(output, a + b, keep, server) ==
      match DownloadAll(output, a, keep, server)
      case Aborted(e, requested) => Aborted(e, requested)
      case Completed(next, requested) => DownloadAll(next, b, keep, server).After(requested)
    decreases |a|
  {
    if |a| == 0 {
      assert a + b == b;
      assert DownloadAll(output, b, keep, server).After([]) == DownloadAll(output, b, keep, server);
    } else {
      assert (a + b)[0] == a[0];
      assert (a + b)[1..] == a[1..] + b;
      var one := DownloadOne(output, a[0], keep, server);
      if one.Completed? {
        var next, requested := one.output, one.requested;
        assert DownloadAll(output, a + b, keep, server) == DownloadAll(next, a[1..] + b, keep, server).After(requested);
        assert DownloadAll(output, a, keep, server) == DownloadAll(next, a[1..], keep, server).After(requested);
        DownloadAllAppend(next, a[1..], b, keep, server);
        var head := DownloadAll(next, a[1..], keep, server);
        if head.Completed? {
          AfterAfter(DownloadAll(head.output, b, keep, server), head.requested, requested);
        }
      }
    }
  }

  /** Prefixing twice is prefixing once with both. */
  lemma AfterAfter(o: Outcome, later: seq<string>, earlier: seq<string>)
    ensures o.After(later).After(earlier) == o.After(earlier + later)
  {
    assert earlier + (later + o.requested) == (earlier + later) + o.requested;
  }

  /**
    An id answered with anything but 200 changes nothing: the batch with it
    ends exactly as the batch without it, apart from the URL fetched.
   */
  lemma RefusedIdChangesNothing(output: Folder, a: seq<string>, fsId: string, b: seq<string>, keep: seq<string>, server: string -> Response)
    requires UrlFor(fsId).Some? && server(UrlFor(fsId).value).status != 200
    ensures DownloadAll(output, a + [fsId] + b, keep, server).Effect() == DownloadAll(output, a + b, keep, server).Effect()
  {
    DownloadAllAppend(output, a, [fsId] + b, keep, server);
    DownloadAllAppend(output, a, b, keep, server);
    assert a + [fsId] + b == a + ([fsId] + b);
    match DownloadAll(output, a, keep, server)
    case Aborted(e, requested) =>
    case Completed(next, requested) =>
      RefusedIdSkipped(next, fsId, keep, server);
      assert ([fsId] + b)[0] == fsId && ([fsId] + b)[1..] == b;
      assert DownloadAll(next, [fsId] + b, keep, server) == DownloadAll(next, b, keep, server).After([UrlFor(fsId).value]);
  }

  /** When every id is refused, the output directory is left exactly as it was. */
  lemma {:induction false} AllRefused(output: Folder, ids: seq<string>, keep: seq<string>, server: string -> Response)
    requires forall i :: 0 <= i < |ids| ==> UrlFor(ids[i]).Some? && server(UrlFor(ids[i]).value).status != 200
    ensures DownloadAll(output, ids, keep, server).Completed?
    ensures DownloadAll(output, ids, keep, server).output == output
    decreases |ids|
  {
    if |ids| > 0 {
      RefusedIdSkipped(output, ids[0], keep, server);
      AllRefused(output, ids[1..], keep, server);
    }
  }

  /** The output directory just before post-processing an id answered with 200, if extraction got through. */
  function Staged(output: Folder, experiment: string, response: Response): Result<Folder, FsError>
  {
    ExtractAll(output[PostProcess.ZipName(experiment) := File(response.body)], response.archive)
  }

  /**
    An id answered with 200 whose archive extracts cleanly and has the
    expected layout ends with the folder named after its label holding only
    the (pruned) `mri` folder, no archive and no extracted tree; every entry
    the archive did not bring and the run did not name is unchanged.
   */
  lemma AcceptedIdStored(output: Folder, fsId: string, keep: seq<string>, server: string -> Response)
    requires ParseAssessmentId(fsId).Some?
    requires var a := ParseAssessmentId(fsId).value;
      var response := server(BuildDownloadUrl(a.subject, a.Label(), fsId));
      && response.status == 200
      && !IsDir(output, PostProcess.ZipName(a.Label()))
      && Staged(output, a.Label(), response).Success?
      && PostProcess.Ready(Staged(output, a.Label(), response).value, fsId, a.Label(), keep)
    ensures var a := ParseAssessmentId(fsId).value;
      var experiment := a.Label();
      var response := server(BuildDownloadUrl(a.subject, experiment, fsId));
      var staged := Staged(output, experiment, response).value;
      var src := Lookup(staged, PostProcess.SourcePath(fsId, experiment)).value;
      var r := DownloadOne(output, fsId, keep, server);
      && r.Completed?
      && experiment in r.output && r.output[experiment] == PostProcess.Placed(src, keep)
      && fsId !in r.output && PostProcess.ZipName(experiment) !in r.output
      && forall name :: name in output && name !in response.archive && name !in {fsId, experiment, PostProcess.ZipName(experiment)}
           ==> name in r.output && r.output[name] == output[name]
  {
    var a := ParseAssessmentId(fsId).value;
    var experiment := a.Label();
    var response := server(BuildDownloadUrl(a.subject, experiment, fsId));
    var staged := Staged(output, experiment, response).value;
    PostProcess.RunEffect(staged, fsId, experiment, keep);
  }

  /** An archive that clashes with what the output directory holds aborts the batch. */
  lemma ClashAborts(output: Folder, fsId: string, keep: seq<string>, server: string -> Response)
    requires ParseAssessmentId(fsId).Some?
    requires var a := ParseAssessmentId(fsId).value;
      var response := server(BuildDownloadUrl(a.subject, a.Label(), fsId));
      && response.status == 200
      && !IsDir(output, PostProcess.ZipName(a.Label()))
      && Staged(output, a.Label(), response).Failure?
    ensures DownloadOne(output, fsId, keep, server).Aborted?
    ensures DownloadOne(output, fsId, keep, server).error == FsFailure(ArchiveClash)
  {
  }
}

=== FILE: filesystem.dfy ===
/**
  An abstract filesystem: a folder maps entry names to files and
  sub-folders. The `os` and `shutil` calls the manager makes are modelled as
  updates of such maps that either succeed or report the error the call
  would raise. They are a model of those calls, not a restatement of the
  library's full behaviour (symbolic links, permissions, partially applied
  moves are not represented).
 */
module FileSystem {
  import opened Wrappers

  /** A file with its bytes, or a directory with its entries. */
  datatype Node = File(data: seq<bv8>) | Dir(entries: map<string, Node>)

  /** The contents of a directory. */
  type Folder = map<string, Node>

  /** Why a filesystem call raised; paths are relative to the folder it acted on. */
  datatype FsError =
    | NotFound(path: seq<string>)
    | NotADirectory(path: seq<string>)
    | IsADirectory(path: seq<string>)
    | AlreadyExists(path: seq<string>)
    | ArchiveClash

  /** `os.path.isdir`. */
  predicate IsDir(f: Folder, name: string)
  {
    name in f && f[name].Dir?
  }

  /** The node at a relative path, if every folder on the way exists. */
  function Lookup(f: Folder, path: seq<string>): Option<Node>
    requires |path| >= 1
    decreases |path|
  {
    if path[0] !in f then None
    else if |path| == 1 then Some(f[path[0]])
    else match f[path[0]]
      case File(_) => None
      case Dir(sub) => Lookup(sub, path[1..])
  }

  /**
    The folder with the node at `path` detached. Only the top-level entry
    `path[0]` can change, and a folder on the way stays a folder.
   */
  function Detach(f: Folder, path: seq<string>): (r: Folder)
    requires |path| >= 1
    ensures forall name :: name in f && name != path[0] ==> name in r && r[name] == f[name]
    ensures forall name :: name in r ==> name in f
    ensures |path| >= 2 && IsDir(f, path[0]) ==> IsDir(r, path[0])
    decreases |path|
  {
    if |path| == 1 then f - {path[0]}
    else if IsDir(f, path[0]) then f[path[0] := Dir(Detach(f[path[0]].entries, path[1..]))]
    else f
  }

  /** After detaching, nothing is left at the path. */
  lemma {:induction false} LookupAfterDetach(f: Folder, path: seq<string>)
    requires |path| >= 1
    ensures Lookup(Detach(f, path), path) == None
    decreases |path|
  {
    if |path| >= 2 && IsDir(f, path[0]) {
      LookupAfterDetach(f[path[0]].entries, path[1..]);
    }
  }

  /** `shutil.rmtree`: removes a directory with everything in it. */
  function RemoveTree(f: Folder, name: string): Result<Folder, FsError>
  {
    if name !in f then Failure(NotFound([name]))
    else if !f[name].Dir? then Failure(NotADirectory([name]))
    else Success(f - {name})
  }

  /** `os.remove`: removes a file. */
  function RemoveFile(f: Folder, name: string): Result<Folder, FsError>
  {
    if name !in f then Failure(NotFound([name]))
    else if f[name].Dir? then Failure(IsADirectory([name]))
    else Success(f - {name})
  }

  /** `os.mkdir`: creates an empty directory under a fresh name. */
  function MakeDir(f: Folder, name: string): Result<Folder, FsError>
  {
    if name in f then Failure(AlreadyExists([name]))
    else Success(f[name := Dir(map[])])
  }

  /** `open(name, 'wb').write(data)`: creates or truncates a file. */
  function WriteFile(f: Folder, name: string, data: seq<bv8>): Result<Folder, FsError>
  {
    if IsDir(f, name) then Failure(IsADirectory([name]))
    else Success(f[name := File(data)])
  }

  /**
    `shutil.move(src, dst)` where `dst` is meant to be a directory: the node
    at `src` is detached and placed inside `dst` under its own last name.
   */
  function MoveInto(f: Folder, src: seq<string>, dst: string): Result<Folder, FsError>
    requires |src| >= 1
  {
    match Lookup(f, src)
    case None => Failure(NotFound(src))
    case Some(node) =>
      var rest := Detach(f, src);
      var base := src[|src| - 1];
      if !IsDir(rest, dst) then Failure(NotADirectory([dst]))
      else if base in rest[dst].entries then Failure(AlreadyExists([dst, base]))
      else Success(rest[dst := Dir(rest[dst].entries[base := node])])
  }

  /**
    `shutil.move(src, dst)` of a whole entry of one folder to the name `dst`
    in another: placed under that name when it is free, and inside it when it
    names a directory.
   */
  function MoveAcross(node: Node, name: string, into: Folder, dst: string): Result<Folder, FsError>
  {
    if dst !in into then Success(into[dst := node])
    else if !into[dst].Dir? then Failure(AlreadyExists([dst]))
    else if name in into[dst].entries then Failure(AlreadyExists([dst, name]))
    else Success(into[dst := Dir(into[dst].entries[name := node])])
  }

  /**
    Whether an extracted node can land where `existing` is: a file may
    overwrite a file, a directory merges into a directory, and any other
    meeting raises (a file written over a directory, or a directory made
    where a file is).
   */
  predicate Fits(existing: Node, incoming: Node)
    decreases incoming
  {
    match incoming
    case File(_) => existing.File?
    case Dir(entries) =>
      && existing.Dir?
      && forall name :: name in entries && name in existing.entries ==> Fits(existing.entries[name], entries[name])
  }

  /** What is left where `incoming` was extracted over `existing`. */
  function Overlay(existing: Node, incoming: Node): Node
    requires Fits(existing, incoming)
    decreases incoming
  {
    match incoming
    case File(_) => incoming
    case Dir(entries) =>
      Dir(map name | name in existing.entries.Keys + entries.Keys ::
        if name in entries && name in existing.entries then Overlay(existing.entries[name], entries[name])
        else if name in entries then entries[name]
        else existing.entries[name])
  }

  /**
    `ZipFile.extractall` into a folder: every member of the archive is written
    at its path, directories merging with the ones already there and files
    overwriting files; a member that meets the other kind of entry raises.
   */
  function ExtractAll(f: Folder, archive: Folder): (r: Result<Folder, FsError>)
    ensures r.Success? <==> forall name :: name in archive && name in f ==> Fits(f[name], archive[name])
    ensures r.Success? ==> r.value.Keys == f.Keys + archive.Keys
    ensures r.Success? ==> forall name :: name in f && name !in archive ==> r.value[name] == f[name]
    ensures r.Success? ==> forall name :: name in archive && name !in f ==> r.value[name] == archive[name]
  {
    if Fits(Dir(f), Dir(archive)) then Success(Overlay(Dir(f), Dir(archive)).entries)
    else Failure(ArchiveClash)
  }

  /** Every file of the archive is found at its path once it was extracted. */
  lemma {:induction false} ExtractedFilePresent(f: Folder, archive: Folder, path: seq<string>)
    requires |path| >= 1
    requires ExtractAll(f, archive).Success?
    requires Lookup(archive, path).Some? && Lookup(archive, path).value.File?
    ensures Lookup(ExtractAll(f, archive).value, path) == Lookup(archive, path)
  {
    OverlayKeepsFiles(Dir(f), Dir(archive), path);
  }

  /** The same, for a node extracted over another. */
  lemma {:induction false} OverlayKeepsFiles(existing: Node, incoming: Node, path: seq<string>)
    requires |path| >= 1 && incoming.Dir?
    requires Fits(existing, incoming)
    requires Lookup(incoming.entries, path).Some? && Lookup(incoming.entries, path).value.File?
    ensures Overlay(existing, incoming).Dir?
    ensures Lookup(Overlay(existing, incoming).entries, path) == Lookup(incoming.entries, path)
    decreases |path|
  {
    var name := path[0];
    var r := Overlay(existing, incoming).entries;
    assert name in r;
    if |path| > 1 && name in existing.entries {
      OverlayKeepsFiles(existing.entries[name], incoming.entries[name], path[1..]);
    }
  }

  /** An archive none of whose names is taken is simply added. */
  lemma ExtractIntoFree(f: Folder, archive: Folder)
    requires forall name :: name in archive ==> name !in f
    ensures ExtractAll(f, archive) == Success(f + archive)
  {
    assert ExtractAll(f, archive).Success?;
    var r := ExtractAll(f, archive).value;
    assert r.Keys == (f + archive).Keys;
    assert forall name :: name in r ==> r[name] == (f + archive)[name];
    assert r == f + archive;
  }
}

=== FILE: id_list.dfy ===
/**
  Reading the list file of freesurfer assessment ids
  (modules/data_manager_fs.py:143-145): the text is cut into lines the way
  Python's `readlines()` does, and every line loses its last character
  (`line[:-1]`), which is meant to be the newline.
 */
module IdList {
  import opened Tokens

  /** The concatenation of the lines. */
  function Concat(lines: seq<string>): string
    decreases |lines|
  {
    if |lines| == 0 then "" else lines[0] + Concat(lines[1..])
  }

  /**
    `readlines()`: every line runs up to and including a newline, except a
    last line that the text ends without one.
   */
  function ReadLines(text: string): (lines: seq<string>)
    ensures |lines| == 0 <==> |text| == 0
    decreases |text|
  {
    if |text| == 0 then []
    else
      var rest := ReadLines(text[1..]);
      if text[0] == '\n' || |rest| == 0 then [[text[0]]] + rest
      else [[text[0]] + rest[0]] + rest[1..]
  }

  /**
    Lines as `readlines()` produces them: none is empty, each one but the
    last ends with a newline, and no line has a newline before its last
    character.
   */
  predicate ProperLines(lines: seq<string>)
  {
    && (forall i :: 0 <= i < |lines| ==> |lines[i]| > 0)
    && (forall i :: 0 <= i < |lines| - 1 ==> lines[i][|lines[i]| - 1] == '\n')
    && (forall i :: 0 <= i < |lines| ==> '\n' !in lines[i][..|lines[i]| - 1])
  }

  /** The lines put back together are the text, and they are proper lines. */
  lemma {:induction false} ReadLinesShape(text: string)
    ensures Concat(ReadLines(text)) == text
    ensures ProperLines(ReadLines(text))
    decreases |text|
  {
    if |text| > 0 {
      var rest := ReadLines(text[1..]);
      ReadLinesShape(text[1..]);
      assert text == [text[0]] + text[1..];
      if text[0] == '\n' || |rest| == 0 {
        LineAlone(text[0], rest);
      } else {
        LineJoined(text[0], rest);
      }
    }
  }

  /** A newline, or the text's last character, is a line of its own. */
  lemma LineAlone(c: char, rest: seq<string>)
    requires ProperLines(rest)
    requires c == '\n' || |rest| == 0
    ensures Concat([[c]] + rest) == [c] + Concat(rest)
    ensures ProperLines([[c]] + rest)
  {
    var lines := [[c]] + rest;
    assert lines[1..] == rest;
    forall i | 0 <= i < |lines|
      ensures |lines[i]| > 0
      ensures i < |lines| - 1 ==> lines[i][|lines[i]| - 1] == '\n'
      ensures '\n' !in lines[i][..|lines[i]| - 1]
    {
      if i == 0 {
        assert lines[0][..0] == "";
      } else {
        assert lines[i] == rest[i - 1];
      }
    }
  }

  /** Any other character starts the first line of the rest. */
  lemma LineJoined(c: char, rest: seq<string>)
    requires ProperLines(rest)
    requires c != '\n' && |rest| > 0
    ensures Concat([[c] + rest[0]] + rest[1..]) == [c] + Concat(rest)
    ensures ProperLines([[c] + rest[0]] + rest[1..])
  {
    var lines := [[c] + rest[0]] + rest[1..];
    JoinedConcat(c, rest);
    forall i | 0 <= i < |lines|
      ensures |lines[i]| > 0
      ensures i < |lines| - 1 ==> lines[i][|lines[i]| - 1] == '\n'
      ensures '\n' !in lines[i][..|lines[i]| - 1]
    {
      if i == 0 {
        JoinedFirst(c, rest[0], |rest| > 1);
      } else {
        assert lines[i] == rest[i];
      }
    }
  }

  /** Gluing a character to the first line keeps the concatenation. */
  lemma JoinedConcat(c: char, rest: seq<string>)
    requires |rest| > 0
    ensures Concat([[c] + rest[0]] + rest[1..]) == [c] + Concat(rest)
  {
    var lines := [[c] + rest[0]] + rest[1..];
    assert lines[1..] == rest[1..];
  }

  /** The glued first line: a proper line whenever the old one was. */
  lemma JoinedFirst(c: char, line: string, notLast: bool)
    requires c != '\n' && |line| > 0 && '\n' !in line[..|line| - 1]
    requires notLast ==> line[|line| - 1] == '\n'
    ensures var first := [c] + line;
      && '\n' !in first[..|first| - 1]
      && (notLast ==> first[|first| - 1] == '\n')
  {
    var first := [c] + line;
    assert first[..|first| - 1] == [c] + line[..|line| - 1];
  }

  /** Python's `line[:-1]`: everything but the last character. */
  function StripLast(line: string): string
  {
    if |line| == 0 then line else line[..|line| - 1]
  }

  /** The ids the download reads from the list file, in file order. */
  function ReadIds(text: string): (ids: seq<string>)
  {
    var lines := ReadLines(text);
    seq(|lines|, i requires 0 <= i < |lines| => StripLast(lines[i]))
  }

  /** The text is empty or its last character is a newline. */
  predicate EndsWithNewline(text: string)
  {
    |text| == 0 || text[|text| - 1] == '\n'
  }

  /** What the ids are in terms of the newline-separated pieces of the file. */
  function IdsFromPieces(pieces: seq<string>, terminated: bool): seq<string>
    requires |pieces| >= 1
  {
    if terminated then pieces[..|pieces| - 1]
    else pieces[..|pieces| - 1] + [StripLast(pieces[|pieces| - 1])]
  }

  /** A leading newline contributes an empty id. */
  lemma ReadIdsNewline(text: string)
    requires |text| > 0 && text[0] == '\n'
    ensures ReadIds(text) == [""] + ReadIds(text[1..])
  {
    assert ReadLines(text) == ["\n"] + ReadLines(text[1..]);
  }

  /** Any other leading character starts the first id. */
  lemma ReadIdsChar(text: string)
    requires |text| > 1 && text[0] != '\n'
    ensures var restIds := ReadIds(text[1..]);
      |restIds| > 0 && ReadIds(text) == [[text[0]] + restIds[0]] + restIds[1..]
  {
    var restLines := ReadLines(text[1..]);
    assert |restLines| > 0;
    var first := [text[0]] + restLines[0];
    assert ReadLines(text) == [first] + restLines[1..];
    assert StripLast(first) == [text[0]] + StripLast(restLines[0]);
  }

  /** Prefixing a character to the first piece prefixes it to the first id. */
  lemma IdsFromPiecesChar(c: char, restPieces: seq<string>, terminated: bool)
    requires |restPieces| >= 1
    requires |restPieces| == 1 ==> !terminated && |restPieces[0]| > 0
    ensures var restIds := IdsFromPieces(restPieces, terminated);
      |restIds| > 0 &&
      IdsFromPieces([[c] + restPieces[0]] + restPieces[1..], terminated)
        == [[c] + restIds[0]] + restIds[1..]
  {
    var pieces := [[c] + restPieces[0]] + restPieces[1..];
    if |restPieces| == 1 {
      assert StripLast([c] + restPieces[0]) == [c] + StripLast(restPieces[0]);
    } else {
      assert pieces[..|pieces| - 1] == [[c] + restPieces[0]] + restPieces[1..|restPieces| - 1];
    }
  }

  /** The step of `ReadIdsArePieces` for a leading character that is not a newline. */
  lemma PiecesChar(text: string)
    requires |text| > 1 && text[0] != '\n'
    requires ReadIds(text[1..]) == IdsFromPieces(Split(text[1..], '\n'), EndsWithNewline(text[1..]))
    ensures ReadIds(text) == IdsFromPieces(Split(text, '\n'), EndsWithNewline(text))
  {
    var rest := text[1..];
    var restPieces := Split(rest, '\n');
    var terminated := EndsWithNewline(text);
    assert terminated == EndsWithNewline(rest);
    if |restPieces| == 1 {
      SplitWithoutSeparatorCount(rest);
    }
    ReadIdsChar(text);
    assert Split(text, '\n') == [[text[0]] + restPieces[0]] + restPieces[1..];
    IdsFromPiecesChar(text[0], restPieces, terminated);
  }

  /** A non-empty text that splits into one piece does not end with a newline. */
  lemma SplitWithoutSeparatorCount(s: string)
    requires |s| > 0 && |Split(s, '\n')| == 1
    ensures !EndsWithNewline(s) && Split(s, '\n')[0] == s
  {
    SplitCount(s, '\n');
    JoinSplit(s, '\n');
    assert s[|s| - 1] in multiset(s);
  }

  /**
    The ids are the newline-separated pieces of the file. When the file ends
    with a newline these are exactly the pieces; when it does not, the last
    piece also loses its last real character.
   */
  lemma {:induction false} ReadIdsArePieces(text: string)
    ensures ReadIds(text) == IdsFromPieces(Split(text, '\n'), EndsWithNewline(text))
    decreases |text|
  {
    if |text| == 1 {
      if text[0] == '\n' {
        ReadIdsNewline(text);
        assert text[1..] == "";
      } else {
        assert text[1..] == "" && ReadLines(text[1..]) == [];
        assert text == [text[0]];
        assert ReadLines(text) == [text];
        SplitWithoutSeparator(text, '\n');
      }
    } else if |text| > 1 {
      ReadIdsArePieces(text[1..]);
      if text[0] == '\n' {
        ReadIdsNewline(text);
        assert EndsWithNewline(text) == EndsWithNewline(text[1..]);
        assert Split(text, '\n') == [""] + Split(text[1..], '\n');
      } else {
        PiecesChar(text);
      }
    }
  }

  /**
    Every line but the last, and the last one too when the file ends with a
    newline, is its id followed by a newline.
   */
  lemma IdDropsNewline(text: string, i: nat)
    requires i < |ReadLines(text)|
    requires i < |ReadLines(text)| - 1 || EndsWithNewline(text)
    ensures ReadLines(text)[i] == ReadIds(text)[i] + "\n"
  {
    var lines := ReadLines(text);
    var line := lines[i];
    assert |line| > 0 && line[|line| - 1] == '\n' by {
      ReadLinesShape(text);
      if i == |lines| - 1 {
        LastLineEnds(text);
      }
    }
    StripLastAppend(line);
    assert ReadIds(text)[i] == StripLast(line);
  }

  /** The last line of a text that ends with a newline ends with it too. */
  lemma {:induction false} LastLineEnds(text: string)
    requires EndsWithNewline(text) && |text| > 0
    ensures var lines := ReadLines(text);
      |lines| > 0 && |lines[|lines| - 1]| > 0 && lines[|lines| - 1][|lines[|lines| - 1]| - 1] == '\n'
    decreases |text|
  {
    ReadLinesShape(text);
    var rest := text[1..];
    if |rest| > 0 {
      LastLineEnds(rest);
      if text[0] != '\n' {
        var restLines := ReadLines(rest);
        assert ReadLines(text) == [[text[0]] + restLines[0]] + restLines[1..];
      }
    }
  }

  /** The list is empty exactly when the file is. */
  lemma NoIdsIffEmptyFile(text: string)
    ensures |ReadIds(text)| == 0 <==> |text| == 0
  {
  }

  /**
    A file whose last line has no newline: the last id is that line with
    its last real character cut off.
   */
  lemma LastIdLosesCharacter(text: string)
    requires !EndsWithNewline(text)
    ensures var ids := ReadIds(text);
      var pieces := Split(text, '\n');
      |ids| > 0 && ids[|ids| - 1] + [text[|text| - 1]] == pieces[|pieces| - 1]
  {
    var pieces := Split(text, '\n');
    ReadIdsArePieces(text);
    LastPieceIsSuffix(text, '\n');
    UnterminatedLast(pieces);
    var last := pieces[|pieces| - 1];
    assert last[|last| - 1] == text[|text| - 1];
    StripLastAppend(last);
  }

  /** Without a final newline, the last id comes from the last piece. */
  lemma UnterminatedLast(pieces: seq<string>)
    requires |pieces| >= 1
    ensures var ids := IdsFromPieces(pieces, false);
      |ids| == |pieces| && ids[|ids| - 1] == StripLast(pieces[|pieces| - 1])
  {
  }

  /** Cutting the last character off and putting it back gives the line. */
  lemma StripLastAppend(line: string)
    requires |line| > 0
    ensures StripLast(line) + [line[|line| - 1]] == line
  {
  }
}

=== FILE: labels.dfy ===
/**
  From a freesurfer assessment id such as `OAS30001_Freesurfer53_d0129` to
  its subject (`OAS30001`) and the experiment label `OAS30001_MR_d0129`
  (modules/data_manager_fs.py:154-158). The id is split on `_`; tokens 0
  and 2 are used, and an id with fewer than three tokens makes the indexing
  fail.
 */
module Labels {
  import opened Wrappers
  import opened Tokens

  /** The two tokens of an assessment id that the download uses. */
  datatype Assessment = Assessment(subject: string, time: string)
  {
    /** `f'{subject_id}_MR_{time_id}'`. */
    function Label(): string
    {
      subject + "_MR_" + time
    }
  }

  /**
    Tokens 0 and 2 of `fsId.split('_')`; `None` where that indexing raises,
    that is when the id has fewer than two underscores.
   */
  function ParseAssessmentId(fsId: string): (r: Option<Assessment>)
    ensures r.Some? <==> multiset(fsId)['_'] >= 2
    ensures r.Some? ==> '_' !in r.value.subject && '_' !in r.value.time
  {
    var tokens := Split(fsId, '_');
    SplitCount(fsId, '_');
    if |tokens| < 3 then None else Some(Assessment(tokens[0], tokens[2]))
  }

  /** The experiment label of an assessment id, when the id has one. */
  function ExperimentLabel(fsId: string): (r: Option<string>)
    ensures r.Some? <==> multiset(fsId)['_'] >= 2
  {
    match ParseAssessmentId(fsId)
    case None => None
    case Some(a) => Some(a.Label())
  }

  /** The shape of an id that parses: a subject, a middle token, a time, then any further tokens. */
  predicate Shaped(fsId: string, subject: string, middle: string, time: string, tail: string)
  {
    && '_' !in subject && '_' !in middle && '_' !in time
    && (tail == "" || tail[0] == '_')
    && fsId == subject + "_" + (middle + "_" + (time + tail))
  }

  /**
    An id made of a subject, a middle token and a time, optionally followed by
    further `_`-tokens, has the label subject, then `_MR_`, then the time.
   */
  lemma LabelOfShapedId(fsId: string, subject: string, middle: string, time: string, tail: string)
    requires Shaped(fsId, subject, middle, time, tail)
    ensures ParseAssessmentId(fsId) == Some(Assessment(subject, time))
    ensures ExperimentLabel(fsId) == Some(subject + "_MR_" + time)
  {
    var afterMiddle := time + tail;
    var afterSubject := middle + "_" + afterMiddle;
    var timeTokens := Split(afterMiddle, '_');
    if tail == "" {
      assert afterMiddle == time;
      SplitWithoutSeparator(time, '_');
    } else {
      assert afterMiddle == time + "_" + tail[1..];
      SplitAfterPiece(time, tail[1..], '_');
    }
    assert timeTokens[0] == time;
    SplitAfterPiece(middle, afterMiddle, '_');
    SplitAfterPiece(subject, afterSubject, '_');
    var tokens := Split(fsId, '_');
    assert tokens == [subject] + ([middle] + timeTokens);
    assert tokens[0] == subject && tokens[2] == time;
  }

  /** Conversely, every id that parses has that shape. */
  lemma ParsedIdIsShaped(fsId: string)
    requires ParseAssessmentId(fsId).Some?
    ensures var a := ParseAssessmentId(fsId).value;
      exists middle, tail :: Shaped(fsId, a.subject, middle, a.time, tail)
  {
    var tokens := Split(fsId, '_');
    assert |tokens| >= 3;
    var tail := TokensShaped(fsId, tokens);
    assert Shaped(fsId, tokens[0], tokens[1], tokens[2], tail);
  }

  /** The tail left after the first three of the tokens of `fsId`. */
  lemma TokensShaped(fsId: string, tokens: seq<string>) returns (tail: string)
    requires tokens == Split(fsId, '_') && |tokens| >= 3
    ensures Shaped(fsId, tokens[0], tokens[1], tokens[2], tail)
  {
    JoinSplit(fsId, '_');
    var rest1 := Join(tokens[1..], '_');
    var rest2 := Join(tokens[2..], '_');
    JoinHead(tokens, '_');
    JoinHead(tokens[1..], '_');
    assert tokens[1..][1..] == tokens[2..];
    if |tokens| == 3 {
      tail := "";
      assert rest2 == tokens[2];
    } else {
      tail := "_" + Join(tokens[3..], '_');
      JoinHead(tokens[2..], '_');
      assert tokens[2..][1..] == tokens[3..];
    }
    assert rest2 == tokens[2] + tail;
  }
}

=== FILE: post_process.dfy ===
/**
  The post-processing of one extracted archive
  (modules/data_manager_fs.py:46-115), as a transformation of the output
  directory: the `mri` folder nested inside the extracted tree replaces
  whatever the destination folder named after the experiment label held,
  the extracted tree and the archive `<label>.zip` are removed, and a
  non-empty allow-list prunes the `mri` folder down to the entries it names.
 */
module PostProcess {
  import opened Wrappers
  import opened FileSystem

  const MriFolder: string := "mri"

  /** Where the archive puts the `mri` folder, relative to the output directory. */
  function SourcePath(fsId: string, experiment: string): seq<string>
  {
    [fsId, "out", "resources", "DATA", "files", experiment, MriFolder]
  }

  /** The name the downloaded archive is stored under. */
  function ZipName(experiment: string): string
  {
    experiment + ".zip"
  }

  /**
    The allow-list filter over the entries of the `mri` folder: an empty list
    keeps everything, otherwise exactly the listed entries survive, untouched.
   */
  function Prune(entries: Folder, keep: seq<string>): (r: Folder)
    ensures forall name :: name in r ==> name in entries && r[name] == entries[name]
    ensures forall name :: name in entries && name in keep ==> name in r
    ensures |keep| > 0 ==> forall name :: name in r ==> name in keep
    ensures |keep| == 0 ==> r == entries
  {
    if |keep| == 0 then entries
    else map name | name in entries && name in keep :: entries[name]
  }

  /**
    The pruning loop as written: the entries are visited in `listing` order
    (whatever order `os.listdir` returns) and each one not in the allow-list
    is removed, file or directory alike.
   */
  function PruneListed(entries: Folder, listing: seq<string>, keep: seq<string>): (r: Folder)
    ensures forall name :: name in r <==> name in entries && (name in keep || name !in listing)
    ensures forall name :: name in r ==> r[name] == entries[name]
    decreases |listing|
  {
    if |listing| == 0 then entries
    else
      var name := listing[0];
      var next := if name !in keep then entries - {name} else entries;
      PruneListed(next, listing[1..], keep)
  }

  /** Whatever order the directory is listed in, the loop computes the filter. */
  lemma PruneLoopIsFilter(entries: Folder, listing: seq<string>, keep: seq<string>)
    requires |keep| > 0
    requires forall name :: name in listing <==> name in entries
    ensures PruneListed(entries, listing, keep) == Prune(entries, keep)
  {
    var r := PruneListed(entries, listing, keep);
    assert r.Keys == Prune(entries, keep).Keys;
  }

  /** Pruning twice with the same allow-list prunes nothing more. */
  lemma PruneIdempotent(entries: Folder, keep: seq<string>)
    ensures Prune(Prune(entries, keep), keep) == Prune(entries, keep)
  {
  }

  /** The pruning step inside the output directory (modules/data_manager_fs.py:98-112). */
  function PruneMri(f: Folder, experiment: string, keep: seq<string>): Result<Folder, FsError>
  {
    if |keep| == 0 then Success(f)
    else if !IsDir(f, experiment) || !IsDir(f[experiment].entries, MriFolder) then
      Failure(NotADirectory([experiment, MriFolder]))
    else
      var dest := f[experiment].entries;
      Success(f[experiment := Dir(dest[MriFolder := Dir(Prune(dest[MriFolder].entries, keep))])])
  }

  /** `__extraction_post_process`, step by step. */
  function Run(root: Folder, fsId: string, experiment: string, keep: seq<string>): Result<Folder, FsError>
  {
    var cleared :- if IsDir(root, experiment) then RemoveTree(root, experiment) else Success(root);
    var created :- MakeDir(cleared, experiment);
    var moved :- MoveInto(created, SourcePath(fsId, experiment), experiment);
    Finish(moved, fsId, experiment, keep)
  }

  /** The last three steps: the extracted tree goes, `mri` is pruned, the archive goes. */
  function Finish(moved: Folder, fsId: string, experiment: string, keep: seq<string>): Result<Folder, FsError>
  {
    var withoutTree :- RemoveTree(moved, fsId);
    var pruned :- PruneMri(withoutTree, experiment, keep);
    RemoveFile(pruned, ZipName(experiment))
  }

  /**
    When post-processing gets through: the destination is a folder or absent,
    the extracted tree is a different entry that holds the `mri` folder (a
    folder whenever there is an allow-list), and the archive is a file.
   */
  predicate Ready(root: Folder, fsId: string, experiment: string, keep: seq<string>)
  {
    && (experiment !in root || root[experiment].Dir?)
    && fsId != experiment
    && Lookup(root, SourcePath(fsId, experiment)).Some?
    && (|keep| == 0 || Lookup(root, SourcePath(fsId, experiment)).value.Dir?)
    && ZipName(experiment) in root && root[ZipName(experiment)].File?
  }

  /** The destination folder afterwards: only the moved, pruned `mri` folder. */
  function Placed(mri: Node, keep: seq<string>): Node
    requires |keep| == 0 || mri.Dir?
  {
    Dir(map[MriFolder := if |keep| == 0 then mri else Dir(Prune(mri.entries, keep))])
  }

  /** A lookup only depends on the first entry of its path. */
  lemma LookupSameTop(f: Folder, g: Folder, path: seq<string>)
    requires |path| >= 1
    requires path[0] in f <==> path[0] in g
    requires path[0] in f ==> f[path[0]] == g[path[0]]
    ensures Lookup(f, path) == Lookup(g, path)
  {
  }

  /** A path that goes through `name` finds something only if `name` is a folder. */
  lemma LookupThroughDir(f: Folder, path: seq<string>)
    requires |path| >= 2 && Lookup(f, path).Some?
    ensures IsDir(f, path[0])
  {
  }

  /** The state after the first three steps, when they succeed. */
  lemma {:induction false} MovedState(root: Folder, fsId: string, experiment: string)
    requires experiment !in root || root[experiment].Dir?
    requires fsId != experiment
    requires Lookup(root, SourcePath(fsId, experiment)).Some?
    ensures var cleared := root - {experiment};
      var created := cleared[experiment := Dir(map[])];
      var src := Lookup(root, SourcePath(fsId, experiment)).value;
      && (if IsDir(root, experiment) then RemoveTree(root, experiment) else Success(root)) == Success(cleared)
      && MakeDir(cleared, experiment) == Success(created)
      && Lookup(created, SourcePath(fsId, experiment)) == Some(src)
      && MoveInto(created, SourcePath(fsId, experiment), experiment).Success?
  {
    var path := SourcePath(fsId, experiment);
    var cleared := root - {experiment};
    if !IsDir(root, experiment) {
      assert cleared == root;
    }
    var created := cleared[experiment := Dir(map[])];
    LookupSameTop(root, created, path);
    LookupThroughDir(root, path);
    var rest := Detach(created, path);
    assert IsDir(rest, experiment);
  }

  /** The folder after the move: the destination holds only `src`, everything else is as it was. */
  lemma MovedEffect(root: Folder, fsId: string, experiment: string)
    requires experiment !in root || root[experiment].Dir?
    requires fsId != experiment
    requires Lookup(root, SourcePath(fsId, experiment)).Some?
    ensures var created := (root - {experiment})[experiment := Dir(map[])];
      var src := Lookup(root, SourcePath(fsId, experiment)).value;
      && MoveInto(created, SourcePath(fsId, experiment), experiment).Success?
      && var moved := MoveInto(created, SourcePath(fsId, experiment), experiment).value;
      && moved.Keys == root.Keys + {experiment}
      && moved[experiment] == Dir(map[MriFolder := src])
      && IsDir(moved, fsId)
      && forall name :: name in root && name !in {fsId, experiment} ==> moved[name] == root[name]
  {
    var path := SourcePath(fsId, experiment);
    var src := Lookup(root, path).value;
    MovedState(root, fsId, experiment);
    LookupThroughDir(root, path);
    var created := (root - {experiment})[experiment := Dir(map[])];
    var rest := Detach(created, path);
    var moved := rest[experiment := Dir(rest[experiment].entries[MriFolder := src])];
    assert rest[experiment] == Dir(map[]);
    assert MoveInto(created, path, experiment) == Success(moved);
  }

  /** The last three steps, once the `mri` folder is in place. */
  lemma FinishEffect(moved: Folder, fsId: string, experiment: string, keep: seq<string>, src: Node)
    requires fsId != experiment && IsDir(moved, fsId)
    requires experiment in moved && moved[experiment] == Dir(map[MriFolder := src])
    requires |keep| == 0 || src.Dir?
    requires ZipName(experiment) in moved && moved[ZipName(experiment)].File?
    ensures Finish(moved, fsId, experiment, keep).Success?
    ensures var r := Finish(moved, fsId, experiment, keep).value;
      && r.Keys == moved.Keys - {fsId, ZipName(experiment)}
      && r[experiment] == Placed(src, keep)
      && forall name :: name in moved && name !in {fsId, experiment, ZipName(experiment)} ==> r[name] == moved[name]
  {
    var withoutTree := moved - {fsId};
    assert RemoveTree(moved, fsId) == Success(withoutTree);
    var pruned := PruneMri(withoutTree, experiment, keep).value;
    assert pruned[experiment] == Placed(src, keep);
    assert pruned.Keys == withoutTree.Keys;
    assert ZipName(experiment) != experiment;
  }

  /**
    Post-processing succeeds exactly when the output directory is `Ready`,
    and then: the destination holds only the moved (and pruned) `mri` folder,
    whatever it held before; the extracted tree and the archive are gone;
    every other entry is unchanged.
   */
  lemma RunEffect(root: Folder, fsId: string, experiment: string, keep: seq<string>)
    requires Ready(root, fsId, experiment, keep)
    ensures Run(root, fsId, experiment, keep).Success?
    ensures var r := Run(root, fsId, experiment, keep).value;
      var src := Lookup(root, SourcePath(fsId, experiment)).value;
      && r.Keys == root.Keys - {fsId, ZipName(experiment)} + {experiment}
      && r[experiment] == Placed(src, keep)
      && forall name :: name in root && name !in {fsId, experiment, ZipName(experiment)} ==> r[name] == root[name]
  {
    var path := SourcePath(fsId, experiment);
    var src := Lookup(root, path).value;
    MovedState(root, fsId, experiment);
    MovedEffect(root, fsId, experiment);
    var created := (root - {experiment})[experiment := Dir(map[])];
    var moved := MoveInto(created, path, experiment).value;
    assert ZipName(experiment) != experiment && ZipName(experiment) != fsId;
    FinishEffect(moved, fsId, experiment, keep, src);
    assert Run(root, fsId, experiment, keep) == Finish(moved, fsId, experiment, keep);
  }

  /** And in every other case post-processing raises. */
  lemma RunFailsUnlessReady(root: Folder, fsId: string, experiment: string, keep: seq<string>)
    requires !Ready(root, fsId, experiment, keep)
    ensures Run(root, fsId, experiment, keep).Failure?
  {
    var path := SourcePath(fsId, experiment);
    if experiment in root && !root[experiment].Dir? {
      assert MakeDir(root, experiment).Failure?;
    } else if fsId == experiment {
      var created := (root - {experiment})[experiment := Dir(map[])];
      assert Lookup(created, path) == None;
    } else if Lookup(root, path).None? {
      var created := (root - {experiment})[experiment := Dir(map[])];
      LookupSameTop(root, created, path);
    } else {
      var src := Lookup(root, path).value;
      MovedState(root, fsId, experiment);
      MovedEffect(root, fsId, experiment);
      var created := (root - {experiment})[experiment := Dir(map[])];
      var moved := MoveInto(created, path, experiment).value;
      assert Run(root, fsId, experiment, keep) == Finish(moved, fsId, experiment, keep);
      var withoutTree := moved - {fsId};
      assert RemoveTree(moved, fsId) == Success(withoutTree);
      if |keep| > 0 && !src.Dir? {
        assert PruneMri(withoutTree, experiment, keep).Failure?;
      } else {
        var pruned := PruneMri(withoutTree, experiment, keep).value;
        assert pruned.Keys == withoutTree.Keys;
        assert ZipName(experiment) != experiment;
        if ZipName(experiment) in pruned {
          assert pruned[ZipName(experiment)] == root[ZipName(experiment)];
        }
      }
    }
  }
}

=== FILE: tokens.dfy ===
/**
  Splitting a string on a one-character separator, with the meaning of
  Python's `str.split(sep)`: the pieces between consecutive occurrences of
  the separator, so that there is always one piece more than there are
  separators. The identifiers, the list file and the download URL are all
  taken apart with it.
 */
module Tokens {

  /** The pieces of `s` between occurrences of `sep`, left to right. */
  function Split(s: string, sep: char): (pieces: seq<string>)
    ensures |pieces| >= 1
    ensures forall i :: 0 <= i < |pieces| ==> sep !in pieces[i]
    decreases |s|
  {
    if |s| == 0 then [""]
    else
      var rest := Split(s[1..], sep);
      if s[0] == sep then [""] + rest
      else [[s[0]] + rest[0]] + rest[1..]
  }

  /** `sep.join(pieces)`. */
  function Join(pieces: seq<string>, sep: char): string
    decreases |pieces|
  {
    if |pieces| == 0 then ""
    else if |pieces| == 1 then pieces[0]
    else pieces[0] + [sep] + Join(pieces[1..], sep)
  }

  /** Joining at least two pieces puts the separator after the first. */
  lemma JoinHead(pieces: seq<string>, sep: char)
    requires |pieces| >= 2
    ensures Join(pieces, sep) == pieces[0] + [sep] + Join(pieces[1..], sep)
  {
  }

  /** Joining the pieces back together with the separator gives the string. */
  lemma {:induction false} JoinSplit(s: string, sep: char)
    ensures Join(Split(s, sep), sep) == s
    decreases |s|
  {
    if |s| > 0 {
      var rest := Split(s[1..], sep);
      JoinSplit(s[1..], sep);
      assert s == [s[0]] + s[1..];
      if s[0] == sep {
        assert ([""] + rest)[1..] == rest;
      } else {
        var head := [s[0]] + rest[0];
        assert ([head] + rest[1..])[1..] == rest[1..];
        if |rest| > 1 {
          assert Join(rest, sep) == rest[0] + [sep] + Join(rest[1..], sep);
        }
      }
    }
  }

  /** A string without the separator is a single piece. */
  lemma {:induction false} SplitWithoutSeparator(a: string, sep: char)
    requires sep !in a
    ensures Split(a, sep) == [a]
    decreases |a|
  {
    if |a| > 0 {
      SplitWithoutSeparator(a[1..], sep);
      assert [a[0]] + a[1..] == a;
    }
  }

  /** A leading piece free of the separator splits off as the first piece. */
  lemma {:induction false} SplitAfterPiece(a: string, b: string, sep: char)
    requires sep !in a
    ensures Split(a + [sep] + b, sep) == [a] + Split(b, sep)
    decreases |a|
  {
    var s := a + [sep] + b;
    if |a| == 0 {
      assert s == [sep] + b;
      assert s[1..] == b;
    } else {
      SplitAfterPiece(a[1..], b, sep);
      assert s[1..] == a[1..] + [sep] + b;
      assert s[0] == a[0];
      assert [a[0]] + a[1..] == a;
    }
  }

  /** Splitting undoes joining pieces that do not contain the separator. */
  lemma {:induction false} SplitJoin(pieces: seq<string>, sep: char)
    requires |pieces| >= 1
    requires forall i :: 0 <= i < |pieces| ==> sep !in pieces[i]
    ensures Split(Join(pieces, sep), sep) == pieces
    decreases |pieces|
  {
    if |pieces| == 1 {
      SplitWithoutSeparator(pieces[0], sep);
    } else {
      SplitJoin(pieces[1..], sep);
      SplitAfterPiece(pieces[0], Join(pieces[1..], sep), sep);
      assert [pieces[0]] + pieces[1..] == pieces;
    }
  }

  /** There is exactly one piece more than there are separators. */
  lemma {:induction false} SplitCount(s: string, sep: char)
    ensures |Split(s, sep)| == multiset(s)[sep] + 1
    decreases |s|
  {
    if |s| > 0 {
      SplitCount(s[1..], sep);
      assert s == [s[0]] + s[1..];
      assert multiset(s) == multiset([s[0]]) + multiset(s[1..]);
    }
  }

  /**
    The last piece is a suffix of the string, and it is not empty when the
    string ends with a character other than the separator.
   */
  lemma {:induction false} LastPieceIsSuffix(s: string, sep: char)
    ensures var pieces := Split(s, sep);
      var last := pieces[|pieces| - 1];
      && |last| <= |s|
      && last == s[|s| - |last|..]
      && (|s| > 0 && s[|s| - 1] != sep ==> |last| > 0)
    decreases |s|
  {
    if |s| > 0 {
      var rest := Split(s[1..], sep);
      LastPieceIsSuffix(s[1..], sep);
      if s[0] != sep && |rest| == 1 {
        JoinSplit(s[1..], sep);
        assert [s[0]] + s[1..] == s;
      }
    }
  }
}

=== FILE: urls.dfy ===
/**
  The archive download URL (modules/data_manager_fs.py:20-44): a fixed base
  URL, the project id, and the path template
  `/subjects/{subject}/experiments/{experiment}/assessors/{assessor}/files?format=zip`.
 */
module Urls {
  import opened Wrappers
  import opened Tokens

  /** The repository's base URL (modules/data_manager_abstract.py:16). */
  const BaseUrl: string := "https://www.nitrc.org/ir/data/archive/projects/"

  /** The freesurfer manager always works on this project (modules/data_manager_fs.py:17). */
  const ProjectId: string := "OASIS3"

  /** Everything before the subject. */
  const UrlHead: string := BaseUrl + ProjectId + "/subjects/"

  /** Everything after the assessor. */
  const FilesSuffix: string := "/files?format=zip"

  /** The download URL of one assessor's archive; no id is validated. */
  function BuildDownloadUrl(subject: string, experiment: string, assessor: string): (url: string)
    ensures UrlHead <= url
    ensures |url| >= |UrlHead| + |FilesSuffix|
    ensures url[|url| - |FilesSuffix|..] == FilesSuffix
  {
    var args := "/subjects/" + subject + "/experiments/" + experiment + "/assessors/" + assessor + FilesSuffix;
    BaseUrl + ProjectId + args
  }

  /**
    Reads the subject, experiment and assessor back out of a download URL,
    treating `/` as the path separator.
   */
  function ParseDownloadUrl(url: string): Option<(string, string, string)>
  {
    if !(UrlHead <= url) then None
    else
      var parts := Split(url[|UrlHead|..], '/');
      if |parts| == 6 && parts[1] == "experiments" && parts[3] == "assessors" && parts[5] == "files?format=zip"
      then Some((parts[0], parts[2], parts[4]))
      else None
  }

  /** The path after the fixed head, with every `/` written out. */
  function Path(subject: string, experiment: string, assessor: string): string
  {
    subject + "/" + ("experiments" + "/" + (experiment + "/" + ("assessors" + "/" + (assessor + "/" + "files?format=zip"))))
  }

  /** The download URL is the fixed head followed by that path. */
  lemma PathShape(subject: string, experiment: string, assessor: string)
    ensures BuildDownloadUrl(subject, experiment, assessor) == UrlHead + Path(subject, experiment, assessor)
  {
    var tail := subject + "/experiments/" + experiment + "/assessors/" + assessor + FilesSuffix;
    assert tail == Path(subject, experiment, assessor) by {
      Separators();
      Regroup(subject, "experiments", experiment, "assessors", assessor, "files?format=zip");
    }
    Regroup7(BaseUrl + ProjectId, "/subjects/", subject, "/experiments/", experiment, "/assessors/", assessor, FilesSuffix);
  }

  /** Seven appended pieces, bracketed after the first. */
  lemma Regroup7(h: string, a: string, b: string, c: string, d: string, e: string, f: string, g: string)
    ensures h + (a + b + c + d + e + f + g) == (h + a) + (b + c + d + e + f + g)
  {
  }

  /** The fixed path segments with their slashes written out. */
  lemma Separators()
    ensures "/experiments/" == "/" + "experiments" + "/"
    ensures "/assessors/" == "/" + "assessors" + "/"
    ensures FilesSuffix == "/" + "files?format=zip"
  {
  }

  /** Moving the brackets of the path to where splitting expects them. */
  lemma Regroup(p0: string, p1: string, p2: string, p3: string, p4: string, p5: string)
    ensures p0 + ("/" + p1 + "/") + p2 + ("/" + p3 + "/") + p4 + ("/" + p5)
      == p0 + "/" + (p1 + "/" + (p2 + "/" + (p3 + "/" + (p4 + "/" + p5))))
  {
  }

  /** Six separator-free pieces joined by `/` split back into those six pieces. */
  lemma SplitSix(p0: string, p1: string, p2: string, p3: string, p4: string, p5: string)
    requires '/' !in p0 && '/' !in p1 && '/' !in p2 && '/' !in p3 && '/' !in p4 && '/' !in p5
    ensures Split(p0 + "/" + (p1 + "/" + (p2 + "/" + (p3 + "/" + (p4 + "/" + p5)))), '/') == [p0, p1, p2, p3, p4, p5]
  {
    var t4 := p4 + "/" + p5;
    var t3 := p3 + "/" + t4;
    var t2 := p2 + "/" + t3;
    var t1 := p1 + "/" + t2;
    var t0 := p0 + "/" + t1;
    SplitWithoutSeparator(p5, '/');
    SplitAfterPiece(p4, p5, '/');
    SplitAfterPiece(p3, t4, '/');
    SplitAfterPiece(p2, t3, '/');
    SplitAfterPiece(p1, t2, '/');
    SplitAfterPiece(p0, t1, '/');
    var s4, s3, s2, s1, s0 := Split(t4, '/'), Split(t3, '/'), Split(t2, '/'), Split(t1, '/'), Split(t0, '/');
    assert s4 == [p4, p5];
    assert s3 == [p3, p4, p5];
    assert s2 == [p2, p3, p4, p5];
    assert s1 == [p1, p2, p3, p4, p5];
    assert s0 == [p0, p1, p2, p3, p4, p5];
  }

  /**
    For ids without `/`, the URL determines the ids it was built from: parsing
    it gives them back.
   */
  lemma ParseBuild(subject: string, experiment: string, assessor: string)
    requires '/' !in subject && '/' !in experiment && '/' !in assessor
    ensures ParseDownloadUrl(BuildDownloadUrl(subject, experiment, assessor)) == Some((subject, experiment, assessor))
  {
    var url := BuildDownloadUrl(subject, experiment, assessor);
    PathShape(subject, experiment, assessor);
    assert url[|UrlHead|..] == Path(subject, experiment, assessor);
    SplitSix(subject, "experiments", experiment, "assessors", assessor, "files?format=zip");
  }

  /** Hence distinct ids without `/` never share a download URL. */
  lemma BuildInjective(s1: string, e1: string, a1: string, s2: string, e2: string, a2: string)
    requires '/' !in s1 && '/' !in e1 && '/' !in a1
    requires '/' !in s2 && '/' !in e2 && '/' !in a2
    requires BuildDownloadUrl(s1, e1, a1) == BuildDownloadUrl(s2, e2, a2)
    ensures s1 == s2 && e1 == e2 && a1 == a2
  {
    ParseBuild(s1, e1, a1);
    ParseBuild(s2, e2, a2);
  }
}

=== FILE: wrappers.dfy ===
/** Failure-compatible Option and Result types used by every other module. */
module Wrappers {

  /** A value that may be absent. */
  datatype Option<+T> = None | Some(value: T) {

    predicate IsFailure() {
      None?
    }

    function PropagateFailure<U>(): Option<U>
      requires None?
    {
      None
    }

    function Extract(): T
      requires Some?
    {
      value
    }

    /** The value, or `default` when there is none. */
    function GetOr(default: T): T
    {
      match this
      case Some(v) => v
      case None => default
    }
  }

  /** Either a value or the error that stopped the computation producing it. */
  datatype Result<+R, +E> = Success(value: R) | Failure(error: E) {

    predicate IsFailure() {
      Failure?
    }

    function PropagateFailure<U>(): Result<U, E>
      requires Failure?
    {
      Failure(error)
    }

    function Extract(): R
      requires Success?
    {
      value
    }
  }
}
